=== FILE: README.md ===
# Mirador login plugin: authentication bar derivation in Dafny

This project models the derivation logic of `CustomAuthenticationBar`. That is
the component a Mirador (IIIF viewer) plugin puts in place of the stock
`WindowAuthenticationBar`. On every render the bar works out four things:

- **session**: whether the browser carries the `mps-login-access-local` cookie
  (`hasCookie`);
- **thumbnail identifier**: the canvas's thumbnail identifier, found by three
  retrieval strategies tried in a fixed order. Its image-server segment is then
  cut out with the pattern `assets/images/([^/]+)/full/`;
- **button**: the button label and the button link. When logged out, the login
  link gets a `target` parameter and, if a thumbnail identifier was found, a
  `path` parameter;
- **caption**: the caption line built from `header` and `label`.

Files:

- `jsstrings.dfy` (module `JsStrings`) holds the JavaScript string semantics the
  code relies on:
  - `split` on one character and its inverse `join`;
  - `trim`, over the WhiteSpace and LineTerminator code points of ECMA-262;
  - `indexOf`, which the bar itself does not call (it tests for `?` with
    `includes`). It serves only to read a built link back into its path and
    query parameters;
  - `||` on strings, read as "first non-empty";
  - `Option` standing for `undefined`.
- `cookies.dfy` (module `Cookies`) models `hasCookie`. It also gives a reference
  definition that tokenises the cookie string into cookie names.
- `thumbnails.dfy` (module `Thumbnails`) holds:
  - the duck-typed canvas, as a record of what each access yields;
  - the three probes and their fixed order;
  - the regular-expression match, as a leftmost-match specification plus a
    scanner that implements it.
- `authbar.dfy` (module `AuthBar`) holds the label, the caption and the URL
  assembly. It also holds `Display`, the whole bar for a known session state,
  and `Resolve`, which takes the session state from the cookie string. The
  worked scenarios are there too.

Every operation is a pure function. Equal inputs therefore give an equal bar,
and no state is carried from one evaluation to the next.

## Model

| member | source | states |
|---|---|---|
| `JsStrings.Or` | src/plugins/MiradorReplaceLoginPlugin.js:83-84 | `a \|\| b` on strings: `a` when it is non-empty, otherwise `b`. The same operator builds the thumbnail identifier (lines 52, 59 and 67) and the caption fallback (line 113). |
| `JsStrings.OrIsFirstNonEmpty` | src/plugins/MiradorReplaceLoginPlugin.js:83-84 | `a \|\| b` is the first non-empty element of `[a, b]`, which ties `Or` to the `FirstNonEmpty` reading of longer chains. |
| `JsStrings.FirstNonEmpty` | src/plugins/MiradorReplaceLoginPlugin.js:82-84 | A chain `a \|\| b \|\| …` gives "" iff every operand is empty. Otherwise it gives an operand that is non-empty and has only empty operands before it. |
| `JsStrings.Split` | src/plugins/MiradorReplaceLoginPlugin.js:16 | `split(';')` returns at least one piece, and no piece contains the separator. |
| `JsStrings.JoinSplit` | src/plugins/MiradorReplaceLoginPlugin.js:16 | Joining the pieces with the separator gives back the split string, so splitting loses nothing. |
| `JsStrings.SplitJoin` | src/plugins/MiradorReplaceLoginPlugin.js:16 | Round trip the other way: splitting the join of separator-free pieces gives back those pieces. |
| `JsStrings.SplitCount` | src/plugins/MiradorReplaceLoginPlugin.js:16 | The number of pieces is one more than the number of separators. |
| `JsStrings.TrimIsSlice` | src/plugins/MiradorReplaceLoginPlugin.js:17 | `trim()` keeps a contiguous slice of its input. Everything cut off on either side is whitespace, and the slice neither starts nor ends with whitespace. |
| `Cookies.HasCookie` | src/plugins/MiradorReplaceLoginPlugin.js:15-19 | True iff some `;`-separated, trimmed piece starts with `name=`. |
| `Cookies.HasCookieIffNamed` | src/plugins/MiradorReplaceLoginPlugin.js:15-18 | For a name without `=`, the prefix scan agrees with tokenising the string into `name=value` cookies and looking the name up. |
| `Cookies.BareNameIsNoCookie` | src/plugins/MiradorReplaceLoginPlugin.js:15-18 | A cookie string that is just the bare name, without `=`, holds no cookie of that name. |
| `Cookies.BareNameAfterOthers` | src/plugins/MiradorReplaceLoginPlugin.js:15-18 | A bare-name piece after other cookies, joined by `;`, changes nothing: the name is found iff it was found before. |
| `Cookies.HasCookieConcat` | src/plugins/MiradorReplaceLoginPlugin.js:16-18 | In two cookie strings joined by `;`, a cookie is found iff it is found in either part. |
| `Cookies.CookieFoundWhateverItsValue` | src/plugins/MiradorReplaceLoginPlugin.js:16-18 | A piece of leading whitespace, `name=` and any value (even one containing `;`) holds the cookie. This holds on its own and after any earlier cookies joined by `;`. The name must contain no `;` and must not start with whitespace. |
| `Cookies.UnfindableName` | src/plugins/MiradorReplaceLoginPlugin.js:16-18 | A name that contains `;` or starts with whitespace is never found, whatever the cookie string. So the name conditions above are exactly the ones the scan needs. |
| `Cookies.IsLoggedIn` | src/plugins/MiradorReplaceLoginPlugin.js:40 | The user is logged in iff the cookie string, read as `name=value` cookies, names `mps-login-access-local`. |
| `Cookies.LoggedInWithEmptyValue` | src/plugins/MiradorReplaceLoginPlugin.js:40 | ` mps-login-access-local=`, with a leading space and an empty value, means logged in. Only presence is checked. |
| `Cookies.BareLoginCookieIsLoggedOut` | src/plugins/MiradorReplaceLoginPlugin.js:40 | The bare string `mps-login-access-local` means logged out. |
| `AuthBar.EmptyCookieIsLoggedOut` | src/plugins/MiradorReplaceLoginPlugin.js:15-19 | An empty cookie string means logged out. |
| `Thumbnails.JsonLdProbe` | src/plugins/MiradorReplaceLoginPlugin.js:50-53 | Returns "" or an identifier the thumbnail carries, and returns "" only when every identifier it may look at is empty. It prefers `@id` on an object and falls back to `id`. For an array it does the same on the first item. |
| `Thumbnails.GetThumbnailProbe` | src/plugins/MiradorReplaceLoginPlugin.js:55-61 | Returns "" or an identifier the thumbnail carries. On an object it prefers `id`, falls back to `@id`, and returns "" only when both are empty. It never looks into an array. |
| `Thumbnails.GetPropertyProbe` | src/plugins/MiradorReplaceLoginPlugin.js:63-69 | Returns "" or an identifier the thumbnail carries, and returns "" only when every identifier it may look at is empty. On an object it prefers `id` and falls back to `@id`. For an array it prefers the first item's `@id` and falls back to that item's `id`. |
| `Thumbnails.ProbePriorities` | src/plugins/MiradorReplaceLoginPlugin.js:50-69 | Take an object with two different identifiers. `__jsonld` yields `@id`, while `getThumbnail` and `getProperty` yield `id`. On an array, `getThumbnail` yields "" and the other two yield the first item's `@id`. |
| `Thumbnails.RawThumbnailId` | src/plugins/MiradorReplaceLoginPlugin.js:47-69 | The identifier found before extraction is "" or an identifier one of the three probed thumbnail values carries. |
| `Thumbnails.RawThumbnailIdIsFirstProbe` | src/plugins/MiradorReplaceLoginPlugin.js:47-69 | The guarded assignments compute the first non-empty result of the ordered strategy list `__jsonld`, `getThumbnail()`, `getProperty('thumbnail')`. |
| `Thumbnails.JsonLdProbeShadowsAccessors` | src/plugins/MiradorReplaceLoginPlugin.js:50-63 | If `__jsonld` yields an identifier, the result does not depend on either accessor. |
| `Thumbnails.GetPropertyConsultedLast` | src/plugins/MiradorReplaceLoginPlugin.js:55-69 | `getProperty` matters only when both earlier probes yield "". |
| `Thumbnails.SegmentAt` | src/plugins/MiradorReplaceLoginPlugin.js:73 | At a given position the pattern captures at most one group. The function returns exactly that group. |
| `Thumbnails.FindMatch` | src/plugins/MiradorReplaceLoginPlugin.js:73 | The scan returns a match with no match before it, or reports that there is no match at all. |
| `Thumbnails.LeftmostMatchUnique` | src/plugins/MiradorReplaceLoginPlugin.js:73 | The leftmost match, and hence the match the regular expression reports, is unique. |
| `Thumbnails.ExtractSegment` | src/plugins/MiradorReplaceLoginPlugin.js:72-77 | On a match the result is `/` plus the leftmost match's segment: it starts with `/` and contains no other `/`. Without a match the identifier is unchanged. |
| `Thumbnails.ExtractSegmentOfLeftmost` | src/plugins/MiradorReplaceLoginPlugin.js:72-77 | The leftmost match alone decides the extracted identifier. |
| `Thumbnails.ExtractAfterPrefix` | src/plugins/MiradorReplaceLoginPlugin.js:72-77 | Take a leading part in which no match starts, then `assets/images/<seg>/full/`, then anything. The result is `/<seg>`. |
| `Thumbnails.NoMatchStartsWithoutA` | src/plugins/MiradorReplaceLoginPlugin.js:73 | No match starts inside a leading part that has no `a`, the first letter of `assets/images/`. |
| `Thumbnails.NoSlashKeepsIdentifier` | src/plugins/MiradorReplaceLoginPlugin.js:72-77 | An identifier without `/` cannot match and is kept unchanged. |
| `Thumbnails.ThumbnailId` | src/plugins/MiradorReplaceLoginPlugin.js:47-78 | No canvas gives "". Otherwise the result is "" iff no strategy found an identifier. A found identifier that matches becomes `/` plus the leftmost match's segment, and one with no match is passed through unchanged. |
| `AuthBar.ExampleThumbnailId` | src/plugins/MiradorReplaceLoginPlugin.js:47-78 | A `__jsonld` thumbnail `https://img.lib/assets/images/ABC123/full/…` yields `/ABC123`. |
| `AuthBar.ButtonLabel` | src/plugins/MiradorReplaceLoginPlugin.js:82-84 | The label is never empty. It is one of `logoutConfirm`, `logoutLabel` and `Logout` when logged in, and one of `confirmButton`, `confirmLabel` and `Login` when logged out. |
| `AuthBar.ButtonLabelIsFirstConfigured` | src/plugins/MiradorReplaceLoginPlugin.js:82-84 | The label is the first non-empty entry of the priority list for the session state, and the default comes last. |
| `AuthBar.Caption` | src/plugins/MiradorReplaceLoginPlugin.js:113 | The caption is `header: label` when both are non-empty, otherwise whichever is non-empty. It is "" iff both are empty. It starts with a non-empty header and ends with a non-empty label. |
| `AuthBar.ButtonUrl` | src/plugins/MiradorReplaceLoginPlugin.js:86-95 | Logged in, the link is `logoutServiceId` verbatim, even when absent. Logged out with an empty or absent `authServiceId`, that value is passed through unchanged. Otherwise the link extends the service URL, and the next character is `&` iff the URL already has a `?`. |
| `AuthBar.LoginUrl` | src/plugins/MiradorReplaceLoginPlugin.js:89-94 | The login link starts with the service URL, is longer than it, and continues it with the separator (`&` iff the URL has a `?`, else `?`). |
| `AuthBar.LoginUrlShape` | src/plugins/MiradorReplaceLoginPlugin.js:89-94 | For every service URL and identifier, the link is the service URL, then `&` if it has a `?` and `?` otherwise, then `target=%2Fassets%2Fimage`, then `&path=<encoded id>` iff the identifier is non-empty. |
| `AuthBar.LoginUrlAppendsParams` | src/plugins/MiradorReplaceLoginPlugin.js:89-95 | Split at its first `?` and then at `&`, the login link keeps the service URL's part before the query and its query parameters. Exactly `target=%2Fassets%2Fimage` follows them, then `path=<encoded id>` iff the thumbnail identifier is non-empty. |
| `AuthBar.ParamsInsideFragment` | src/plugins/MiradorReplaceLoginPlugin.js:89-94 | If the service URL has a `#` fragment, the link's first `#` is the service URL's own, so `target` and `path` are appended inside the fragment. |
| `AuthBar.LoginUrlWithPath` | src/plugins/MiradorReplaceLoginPlugin.js:89-94 | On a service URL without a query and with an identifier, the link is `base?target=%2Fassets%2Fimage&path=<encoded id>`. |
| `AuthBar.ExampleLoginUrl` | src/plugins/MiradorReplaceLoginPlugin.js:89-94 | The login link for `https://auth.example/login` and `/ABC123` is `https://auth.example/login?target=%2Fassets%2Fimage&path=%2FABC123`. |
| `AuthBar.ExistingQueryScenario` | src/plugins/MiradorReplaceLoginPlugin.js:89-91 | A service URL `…/login?x=1` is joined with `&`, not `?`. |
| `AuthBar.Display` | src/plugins/MiradorReplaceLoginPlugin.js:47-95 | For the whole bar once the session state is known: the label is never empty, and a logged-in bar links to `logoutServiceId` unchanged. An unconfigured login service passes through unchanged, and a configured one is extended, never replaced. The caption is empty iff `header` and `label` both are. |
| `AuthBar.Resolve` | src/plugins/MiradorReplaceLoginPlugin.js:40-95 | The whole bar from the cookie string. If the cookie string names `mps-login-access-local`, the link is `logoutServiceId` unchanged and the label comes from the logout options or `Logout`. Otherwise the label comes from the login options or `Login`, and a configured login service is extended, never replaced; an unconfigured one passes through unchanged. |
| `AuthBar.NoCanvasNoPath` | src/plugins/MiradorReplaceLoginPlugin.js:47-95 | Without a canvas the login link gets `target` and no `path` parameter. |
| `AuthBar.LoginScenario` | src/plugins/MiradorReplaceLoginPlugin.js:40-95 | From an empty cookie string, a `__jsonld` thumbnail on the image server and only `authServiceId` configured, the bar is: no caption, `Login`, and a link carrying `target` and `path=%2FABC123`. |
| `AuthBar.LogoutScenario` | src/plugins/MiradorReplaceLoginPlugin.js:40-89 | With the cookie `mps-login-access-local=abc` and only `logoutServiceId` configured, the label is `Logout` and the link is the logout URL verbatim, whatever the canvas. |

## Left out

- React and Material-UI rendering (the `Paper`, `Typography` and `Button` elements, lines 99-125). This is presentation only. The model stops at the strings the elements receive.
- Reading `document.cookie`. This is browser I/O, so the cookie string is a parameter.
- All `console.log` calls. They are debug output with no effect on the result.
- `mapStateToProps`, `getCurrentCanvas` and the plugin registration object (lines 132-141). They are plumbing into the host viewer's state store, which is not part of this model.
- `encodeURIComponent` is the parameter `encode`. The operations assume only `encode("/assets/image") == "%2Fassets%2Fimage"`. The worked scenarios `AuthBar.LoginScenario` and `AuthBar.ExampleLoginUrl` also assume `encode("/ABC123") == "%2FABC123"` for their example identifier. The concrete percent-encoding (UTF-8, the unreserved set, `URIError` on lone surrogates) belongs to the JavaScript runtime.
- AuthBar.LoginUrlAppendsParams: additionally requires the encoded identifier to contain no `&`. `encodeURIComponent` guarantees this, but the abstract `encode` does not. Its read-back also splits only at the first `?` and does not recognise `#` fragments. For a service URL with a fragment, such as `https://auth.example/login#top`, the code appends `target` and `path` inside the fragment, so a URL parser sees no query parameters there; `AuthBar.ParamsInsideFragment` states this.
- Cookies.HasCookieIffNamed: holds only for names without `=`. For a name such as `a=b`, the prefix scan and a name lookup disagree. The fixed name `mps-login-access-local` has no `=`.
- Non-string JavaScript values are not modelled. This covers a numeric or object `@id`, a thumbnail given as a plain string, a `null` array item, and non-string configuration options. Identifiers and options are strings, or `undefined` (`None` / "").
- Canvas truthiness is reduced to present or absent (`Option<Canvas>`).
- The three canvas accesses are data. `getThumbnail()` and `getProperty('thumbnail')` are read once, as the code reads them.
- JavaScript strings are UTF-16 code units, while Dafny `char` is a Unicode scalar value. The pattern and the separators are ASCII, so the difference shows in two places only. The first is characters outside the Basic Multilingual Plane, which are one `char` here and two code units in JavaScript. The second is lone surrogates (U+D800 to U+DFFF), which a JavaScript string can hold, for example from a JSON `\uD800` inside `@id`, but a Dafny `char` cannot. Neither can match the pattern or the separators either way, but a string holding a lone surrogate has no counterpart in the model.
- No-match extraction: when the pattern does not match, the code (lines 72-77) keeps the raw identifier rather than clearing it. The model follows the code, and `Thumbnails.ExtractSegment` and `Thumbnails.ThumbnailId` state this.

=== FILE: authbar.dfy ===
/**
 What the custom authentication bar displays: a caption, a button label and
 the button's link, derived from the session cookie, the current canvas and
 the authentication service's configuration strings.

 `encodeURIComponent` is the parameter `encode`; the operations rely only on
 what it makes of the fixed target path. The worked scenarios at the end also
 fix what it makes of their example identifier `/ABC123`.
 */
module AuthBar {
  import opened JsStrings
  import opened Cookies
  import opened Thumbnails

  /**
   The configuration the bar receives; `None` is an option the service does not
   set. `serviceLabel` is the option called `label` (a reserved word here).
   */
  datatype Config = Config(
    header: Option<string>,
    serviceLabel: Option<string>,
    confirmButton: Option<string>,
    confirmLabel: Option<string>,
    authServiceId: Option<string>,
    logoutServiceId: Option<string>,
    logoutLabel: Option<string>,
    logoutConfirm: Option<string>)

  /** What the bar shows: the caption line, the button text and the button link (`None`: no link). */
  datatype Bar = Bar(caption: string, buttonLabel: string, buttonUrl: Option<string>)

  /** The page the login service sends the user back to. */
  const TargetPath: string := "/assets/image"
  const EncodedTargetPath: string := "%2Fassets%2Fimage"

  /** `encode` agrees with `encodeURIComponent` on the target path. */
  predicate PinnedEncoder(encode: string -> string) {
    encode(TargetPath) == EncodedTargetPath
  }

  // ---------------------------------------------------------------------------
  // Button label

  /**
   Logged in: `logoutConfirm || logoutLabel || 'Logout'`; logged out:
   `confirmButton || confirmLabel || 'Login'`. Never empty, and always one of
   the two options or the default.
   */
  function ButtonLabel(loggedIn: bool, cfg: Config): (r: string)
    ensures r != ""
    ensures loggedIn ==> r in {Text(cfg.logoutConfirm), Text(cfg.logoutLabel), "Logout"}
    ensures !loggedIn ==> r in {Text(cfg.confirmButton), Text(cfg.confirmLabel), "Login"}
  {
    if loggedIn then Or(Or(Text(cfg.logoutConfirm), Text(cfg.logoutLabel)), "Logout")
    else Or(Or(Text(cfg.confirmButton), Text(cfg.confirmLabel)), "Login")
  }

  /** The label is the first configured text in priority order, the default coming last. */
  lemma ButtonLabelIsFirstConfigured(loggedIn: bool, cfg: Config)
    ensures loggedIn ==> ButtonLabel(loggedIn, cfg) == FirstNonEmpty([Text(cfg.logoutConfirm), Text(cfg.logoutLabel), "Logout"])
    ensures !loggedIn ==> ButtonLabel(loggedIn, cfg) == FirstNonEmpty([Text(cfg.confirmButton), Text(cfg.confirmLabel), "Login"])
  {
    var xs := if loggedIn then [Text(cfg.logoutConfirm), Text(cfg.logoutLabel), "Logout"]
              else [Text(cfg.confirmButton), Text(cfg.confirmLabel), "Login"];
    assert xs[1..][1..] == [xs[2]];
    assert FirstNonEmpty(xs[1..][1..]) == xs[2] by {
      assert [xs[2]][1..] == [];
    }
    assert FirstNonEmpty(xs) == Or(xs[0], Or(xs[1], xs[2]));
  }

  // ---------------------------------------------------------------------------
  // Caption

  /** `header && label ? `${header}: ${label}` : (header || label || '')`, with `text` for `label`. */
  function Caption(header: Option<string>, text: Option<string>): (r: string)
    ensures r == "" <==> !Truthy(header) && !Truthy(text)
    ensures Truthy(header) ==> header.value <= r
    ensures Truthy(text) ==> |text.value| <= |r| && r[|r| - |text.value|..] == text.value
    ensures Truthy(header) && Truthy(text) ==> r == header.value + ": " + text.value
    ensures Truthy(header) != Truthy(text) ==> r == Text(header) + Text(text)
  {
    if Truthy(header) && Truthy(text) then
      var r := header.value + ": " + text.value;
      assert r[|r| - |text.value|..] == text.value;
      r
    else Or(Or(Text(header), Text(text)), "")
  }

  // ---------------------------------------------------------------------------
  // Button URL

  /**
   Logged in: `logoutServiceId` as it is. Logged out: `authServiceId`, and when
   it is non-empty, `target=` and, for a non-empty thumbnail identifier, `path=`
   are appended as query parameters.
   */
  function ButtonUrl(loggedIn: bool, cfg: Config, thumbId: string, encode: string -> string): (r: Option<string>)
    requires PinnedEncoder(encode)
    ensures loggedIn ==> r == cfg.logoutServiceId
    ensures !loggedIn && !Truthy(cfg.authServiceId) ==> r == cfg.authServiceId
    ensures !loggedIn && Truthy(cfg.authServiceId) ==>
      && r.Some?
      && cfg.authServiceId.value <= r.value
      && |r.value| > |cfg.authServiceId.value|
      && r.value[|cfg.authServiceId.value|] == (if '?' in cfg.authServiceId.value then '&' else '?')
  {
    var url := if loggedIn then cfg.logoutServiceId else cfg.authServiceId;
    if !loggedIn && Truthy(url) then
      var full := LoginUrl(url.value, thumbId, encode);
      assert full[..|url.value|] == url.value;
      Some(full)
    else
      url
  }

  /** The login link built on a non-empty service URL `base`. */
  function LoginUrl(base: string, thumbId: string, encode: string -> string): (r: string)
    requires PinnedEncoder(encode)
    ensures base <= r
    ensures |r| > |base| && r[|base|] == (if '?' in base then '&' else '?')
  {
    var separator := if '?' in base then "&" else "?";
    var withTarget := base + separator + "target=" + encode(TargetPath);
    if thumbId != "" then withTarget + "&path=" + encode(thumbId) else withTarget
  }

  /** The part of a URL before its first `?`. */
  function UrlPath(url: string): string {
    if '?' in url then url[..IndexOf(url, '?')] else url
  }

  /** The `&`-separated pieces after the first `?`; none without a query. */
  function QueryParams(url: string): seq<string> {
    if '?' in url then Split(url[IndexOf(url, '?') + 1..], '&') else []
  }

  /** The parameters the login link adds, in order. */
  function AddedParams(thumbId: string, encode: string -> string): seq<string> {
    ["target=" + EncodedTargetPath] + (if thumbId != "" then ["path=" + encode(thumbId)] else [])
  }

  /**
   Splitting the login link at its first `?` and its query at `&`: the part
   before the query and the service's own query parameters are untouched, and
   exactly `target` and then (for a non-empty thumbnail identifier) `path` follow
   them. This needs `encode` to leave no `&` in the encoded identifier, as
   `encodeURIComponent` does. The split does not recognise a `#` fragment; see
   `ParamsInsideFragment` for a service URL that has one.
   */
  lemma LoginUrlAppendsParams(cfg: Config, thumbId: string, encode: string -> string)
    requires PinnedEncoder(encode) && Truthy(cfg.authServiceId)
    requires thumbId != "" ==> '&' !in encode(thumbId)
    ensures UrlPath(ButtonUrl(false, cfg, thumbId, encode).value) == UrlPath(cfg.authServiceId.value)
    ensures QueryParams(ButtonUrl(false, cfg, thumbId, encode).value) == QueryParams(cfg.authServiceId.value) + AddedParams(thumbId, encode)
  {
    var base := cfg.authServiceId.value;
    var params := "target=" + EncodedTargetPath + (if thumbId != "" then "&path=" + encode(thumbId) else "");
    LoginUrlShape(base, thumbId, encode);
    AddedParamsSplit(thumbId, encode);
    if '?' in base {
      QueryAfterExistingQuery(base, params);
    } else {
      QueryAfterNewQuery(base, params);
    }
  }

  /**
   On a service URL with a `#` fragment the link's first `#` stays where it was
   in the service URL, so everything appended, `target` and `path` included,
   lands inside the fragment rather than in the query.
   */
  lemma ParamsInsideFragment(base: string, thumbId: string, encode: string -> string)
    requires PinnedEncoder(encode) && '#' in base
    ensures '#' in LoginUrl(base, thumbId, encode)
    ensures IndexOf(LoginUrl(base, thumbId, encode), '#') == IndexOf(base, '#') < |base|
  {
    var r := LoginUrl(base, thumbId, encode);
    assert r == base + r[|base|..];
    IndexOfExtend(base, r[|base|..], '#');
  }

  /** The login link is the service URL, the separator, and the parameter text. */
  lemma LoginUrlShape(base: string, thumbId: string, encode: string -> string)
    requires PinnedEncoder(encode)
    ensures LoginUrl(base, thumbId, encode)
            == base + (if '?' in base then "&" else "?")
               + ("target=" + EncodedTargetPath + (if thumbId != "" then "&path=" + encode(thumbId) else ""))
  {
  }

  /** The appended text splits on `&` into exactly the added parameters. */
  lemma AddedParamsSplit(thumbId: string, encode: string -> string)
    requires thumbId != "" ==> '&' !in encode(thumbId)
    ensures Split("target=" + EncodedTargetPath + (if thumbId != "" then "&path=" + encode(thumbId) else ""), '&')
            == AddedParams(thumbId, encode)
  {
    var target := "target=" + EncodedTargetPath;
    assert '&' !in target;
    SplitNoSeparator(target, '&');
    if thumbId != "" {
      var p := "path=" + encode(thumbId);
      assert '&' !in p;
      assert target + ("&path=" + encode(thumbId)) == target + ['&'] + p;
      SplitConcat(target, p, '&');
      SplitNoSeparator(p, '&');
    } else {
      assert target + "" == target;
    }
  }

  /** Joining more parameters with `&` to a URL that has a query keeps its path and its parameters. */
  lemma QueryAfterExistingQuery(base: string, params: string)
    requires '?' in base
    ensures UrlPath(base + "&" + params) == UrlPath(base)
    ensures QueryParams(base + "&" + params) == QueryParams(base) + Split(params, '&')
  {
    var url := base + "&" + params;
    var i := IndexOf(base, '?');
    assert url == base + ("&" + params);
    IndexOfExtend(base, "&" + params, '?');
    assert url[..i] == base[..i];
    var q := base[i + 1..];
    assert url[i + 1..] == q + ['&'] + params;
    SplitConcat(q, params, '&');
  }

  /** Starting a query with `?` on a URL without one keeps the URL as the path. */
  lemma QueryAfterNewQuery(base: string, params: string)
    requires '?' !in base
    ensures UrlPath(base + "?" + params) == base
    ensures QueryParams(base + "?" + params) == Split(params, '&')
  {
    var url := base + "?" + params;
    assert url == base + ['?'] + params;
    IndexOfAfter(base, params, '?');
    assert url[..|base|] == base;
    assert url[|base| + 1..] == params;
  }

  // ---------------------------------------------------------------------------
  // The whole bar

  /** Everything the bar displays, once the session state is known. */
  function Display(loggedIn: bool, canvas: Option<Canvas>, cfg: Config, encode: string -> string): (r: Bar)
    requires PinnedEncoder(encode)
    ensures r.buttonLabel != ""
    ensures loggedIn ==> r.buttonUrl == cfg.logoutServiceId
    ensures !loggedIn && !Truthy(cfg.authServiceId) ==> r.buttonUrl == cfg.authServiceId
    ensures !loggedIn && Truthy(cfg.authServiceId) ==> r.buttonUrl.Some? && cfg.authServiceId.value <= r.buttonUrl.value
    ensures r.caption == "" <==> !Truthy(cfg.header) && !Truthy(cfg.serviceLabel)
  {
    Bar(Caption(cfg.header, cfg.serviceLabel),
        ButtonLabel(loggedIn, cfg),
        ButtonUrl(loggedIn, cfg, ThumbnailId(canvas), encode))
  }

  /**
   Everything the bar displays, from the cookie string, the canvas and the
   configuration: the session comes from whether the cookie string names the
   login cookie.
   */
  function Resolve(cookie: string, canvas: Option<Canvas>, cfg: Config, encode: string -> string): (r: Bar)
    requires PinnedEncoder(encode)
    ensures LoginCookie in CookieNames(cookie) ==>
      r.buttonUrl == cfg.logoutServiceId && r.buttonLabel in {Text(cfg.logoutConfirm), Text(cfg.logoutLabel), "Logout"}
    ensures LoginCookie !in CookieNames(cookie) ==>
      r.buttonLabel in {Text(cfg.confirmButton), Text(cfg.confirmLabel), "Login"}
    ensures LoginCookie !in CookieNames(cookie) && Truthy(cfg.authServiceId) ==>
      r.buttonUrl.Some? && cfg.authServiceId.value <= r.buttonUrl.value
    ensures LoginCookie !in CookieNames(cookie) && !Truthy(cfg.authServiceId) ==> r.buttonUrl == cfg.authServiceId
  {
    Display(IsLoggedIn(cookie), canvas, cfg, encode)
  }

  /** Without a canvas the login link carries `target` and no `path`. */
  lemma NoCanvasNoPath(cfg: Config, encode: string -> string)
    requires PinnedEncoder(encode) && Truthy(cfg.authServiceId)
    ensures QueryParams(Display(false, None, cfg, encode).buttonUrl.value)
            == QueryParams(cfg.authServiceId.value) + ["target=" + EncodedTargetPath]
  {
    assert ThumbnailId(None) == "";
    LoginUrlAppendsParams(cfg, "", encode);
  }

  // ---------------------------------------------------------------------------
  // Worked scenarios

  /** A configuration with no option set. */
  const NoConfig: Config := Config(None, None, None, None, None, None, None, None)

  /** The example thumbnail on the image server. */
  const ExampleThumb: ThumbRef :=
    ThumbRef("https://img.lib/" + ImagesMarker + "ABC123" + FullMarker + "0,0,100,100/0/default.jpg", "")

  /** The `__jsonld` thumbnail's identifier is found and cut down to its image segment. */
  lemma ExampleThumbnailId()
    ensures ThumbnailId(Some(Canvas(Object(ExampleThumb), None, None))) == "/ABC123"
  {
    assert RawThumbnailId(Canvas(Object(ExampleThumb), None, None)) == ExampleThumb.atId;
    var pre, seg, rest := "https://img.lib/", "ABC123", "0,0,100,100/0/default.jpg";
    NoMatchStartsWithoutA(pre, seg, rest);
    ExtractAfterPrefix(pre, seg, rest);
  }

  /** An empty cookie string means logged out. */
  lemma EmptyCookieIsLoggedOut()
    ensures !IsLoggedIn("")
  {
    assert Split("", ';') == [""];
    assert LeadingWhitespace("") == 0;
    assert Trim("") == "";
  }

  /**
   Logged out, a `__jsonld` thumbnail on the image server, and a login service
   without a query: the link carries the target and the extracted segment.
   */
  lemma LoginScenario(encode: string -> string)
    requires PinnedEncoder(encode) && encode("/ABC123") == "%2FABC123"
    ensures
      var cfg := NoConfig.(authServiceId := Some("https://auth.example/login"));
      Resolve("", Some(Canvas(Object(ExampleThumb), None, None)), cfg, encode)
        == Bar("", "Login", Some("https://auth.example/login?target=%2Fassets%2Fimage&path=%2FABC123"))
  {
    ExampleThumbnailId();
    EmptyCookieIsLoggedOut();
    ExampleLoginUrl(encode);
  }

  /** The login link for the example service and segment. */
  lemma ExampleLoginUrl(encode: string -> string)
    requires PinnedEncoder(encode) && encode("/ABC123") == "%2FABC123"
    ensures LoginUrl("https://auth.example/login", "/ABC123", encode)
            == "https://auth.example/login?target=%2Fassets%2Fimage&path=%2FABC123"
  {
    var base := "https://auth.example/login";
    assert '?' !in base;
    LoginUrlWithPath(base, "/ABC123", encode);
    ExampleLoginText();
  }

  /**
   The example link spelled out. The verifier compares string literals character
   by character, so the link is assembled one piece at a time.
   */
  lemma ExampleLoginText()
    ensures "https://auth.example/login" + "?target=" + EncodedTargetPath + "&path=" + "%2FABC123"
            == "https://auth.example/login?target=%2Fassets%2Fimage&path=%2FABC123"
  {
    assert "https://auth.example/login" + "?target=" == "https://auth.example/login?target=";
    assert "https://auth.example/login?target=" + EncodedTargetPath == "https://auth.example/login?target=%2Fassets%2Fimage";
    assert "https://auth.example/login?target=%2Fassets%2Fimage" + "&path=" == "https://auth.example/login?target=%2Fassets%2Fimage&path=";
  }

  /** The login link on a service URL without a query, for a non-empty identifier. */
  lemma LoginUrlWithPath(base: string, thumbId: string, encode: string -> string)
    requires PinnedEncoder(encode) && '?' !in base && thumbId != ""
    ensures LoginUrl(base, thumbId, encode) == base + "?target=" + EncodedTargetPath + "&path=" + encode(thumbId)
  {
    LoginUrlShape(base, thumbId, encode);
  }

  /** A login service URL that already has a query gets `&` as the joiner. */
  lemma ExistingQueryScenario(encode: string -> string)
    requires PinnedEncoder(encode)
    ensures
      var cfg := NoConfig.(authServiceId := Some("https://auth.example/login?x=1"));
      ButtonUrl(false, cfg, "", encode) == Some("https://auth.example/login?x=1&target=%2Fassets%2Fimage")
  {
    var base := "https://auth.example/login?x=1";
    assert base[26] == '?';
    LoginUrlShape(base, "", encode);
    assert LoginUrl(base, "", encode) == base + "&target=" + EncodedTargetPath;
    ExistingQueryText();
  }

  /** The link with an existing query spelled out, assembled one piece at a time as in `ExampleLoginText`. */
  lemma ExistingQueryText()
    ensures "https://auth.example/login?x=1" + "&target=" + EncodedTargetPath
            == "https://auth.example/login?x=1&target=%2Fassets%2Fimage"
  {
    assert "https://auth.example/login?x=1" + "&target=" == "https://auth.example/login?x=1&target=";
  }

  /**
   With the session cookie set, the logout URL is used verbatim and the label
   falls back to "Logout", whatever the canvas.
   */
  lemma LogoutScenario(canvas: Option<Canvas>, encode: string -> string)
    requires PinnedEncoder(encode)
    ensures
      var cfg := NoConfig.(logoutServiceId := Some("https://auth.example/logout"));
      Resolve("mps-login-access-local=abc", canvas, cfg, encode).buttonUrl == Some("https://auth.example/logout")
      && Resolve("mps-login-access-local=abc", canvas, cfg, encode).buttonLabel == "Logout"
  {
    assert "mps-login-access-local=abc" == "" + LoginCookie + "=" + "abc";
    CookieFoundWhateverItsValue("", "", LoginCookie, "abc");
  }
}

=== FILE: cookies.dfy ===
/**
 Session detection of the authentication bar: the user counts as logged in when
 the browser's cookie string carries a cookie named `mps-login-access-local`.
 The cookie string is a parameter here; reading `document.cookie` is the host's business.
 */
module Cookies {
  import opened JsStrings

  /** The cookie whose presence means "logged in". */
  const LoginCookie: string := "mps-login-access-local"

  /**
   `cookie.split(';').some(c => c.trim().startsWith(prefix))`, over the already
   split pieces.
   */
  function SomeTrimmedStartsWith(pieces: seq<string>, prefix: string): (r: bool)
    ensures r <==> exists i :: 0 <= i < |pieces| && prefix <= Trim(pieces[i])
  {
    if |pieces| == 0 then false
    else if prefix <= Trim(pieces[0]) then true
    else
      var r := SomeTrimmedStartsWith(pieces[1..], prefix);
      assert r ==> exists i :: 0 <= i < |pieces| && prefix <= Trim(pieces[i]) by {
        if r {
          var i :| 0 <= i < |pieces[1..]| && prefix <= Trim(pieces[1..][i]);
          assert pieces[i + 1] == pieces[1..][i];
        }
      }
      assert (exists i :: 0 <= i < |pieces| && prefix <= Trim(pieces[i])) ==> r by {
        if exists i :: 0 <= i < |pieces| && prefix <= Trim(pieces[i]) {
          var i :| 0 <= i < |pieces| && prefix <= Trim(pieces[i]);
          assert i != 0;
          assert pieces[1..][i - 1] == pieces[i];
        }
      }
      r
  }

  /**
   True iff some `;`-separated piece of `cookie`, with surrounding whitespace
   removed, starts with `name + "="`. The value after `=` is not looked at.
   */
  function HasCookie(cookie: string, name: string): (r: bool)
    ensures r <==> exists i :: 0 <= i < |Split(cookie, ';')| && name + "=" <= Trim(Split(cookie, ';')[i])
  {
    var pieces := Split(cookie, ';');
    var prefix := name + "=";
    var r := SomeTrimmedStartsWith(pieces, prefix);
    assert r <==> exists i :: 0 <= i < |pieces| && prefix <= Trim(pieces[i]);
    r
  }

  /**
   The session flag the bar derives from the cookie string: logged in exactly
   when the cookie string names the login cookie.
   */
  function IsLoggedIn(cookie: string): (r: bool)
    ensures r <==> LoginCookie in CookieNames(cookie)
  {
    HasCookieIffNamed(cookie, LoginCookie);
    HasCookie(cookie, LoginCookie)
  }

  // ---------------------------------------------------------------------------
  // Reference definition: tokenise the cookie string into named cookies.

  /** The name of a `name=value` token: everything before the first `=`. */
  function NameOf(token: string): (n: string)
    requires '=' in token
    ensures '=' !in n && n + "=" <= token
  {
    var k := IndexOf(token, '=');
    assert token[..k + 1] == token[..k] + "=";
    token[..k]
  }

  /** The names of all cookies in a cookie string (tokens without `=` name nothing). */
  function CookieNames(cookie: string): set<string> {
    var pieces := Split(cookie, ';');
    set i | 0 <= i < |pieces| && '=' in Trim(pieces[i]) :: NameOf(Trim(pieces[i]))
  }

  /** For a name without `=`, a token starts with `name=` exactly when `name` is its name. */
  lemma TokenNamed(token: string, name: string)
    requires '=' !in name
    ensures name + "=" <= token <==> ('=' in token && NameOf(token) == name)
  {
    if name + "=" <= token {
      assert token[|name|] == '=';
      var k := IndexOf(token, '=');
      assert token[..|name|] == name;
      assert k == |name|;
    }
    if '=' in token && NameOf(token) == name {
      assert name + "=" <= token;
    }
  }

  /**
   The prefix scan agrees with the tokenised view: for a name without `=`, the
   scan finds the cookie iff the cookie string names it.
   */
  lemma HasCookieIffNamed(cookie: string, name: string)
    requires '=' !in name
    ensures HasCookie(cookie, name) <==> name in CookieNames(cookie)
  {
    var pieces := Split(cookie, ';');
    if HasCookie(cookie, name) {
      var i :| 0 <= i < |pieces| && name + "=" <= Trim(pieces[i]);
      TokenNamed(Trim(pieces[i]), name);
    }
    if name in CookieNames(cookie) {
      var i :| 0 <= i < |pieces| && '=' in Trim(pieces[i]) && NameOf(Trim(pieces[i])) == name;
      TokenNamed(Trim(pieces[i]), name);
    }
  }

  /** A cookie string that is just the bare name, with no `=`, holds no cookie of that name. */
  lemma BareNameIsNoCookie(name: string)
    requires ';' !in name
    ensures !HasCookie(name, name)
  {
    SplitNoSeparator(name, ';');
    assert Split(name, ';') == [name];
  }

  /** A bare-name piece after other cookies adds nothing. */
  lemma BareNameAfterOthers(before: string, name: string)
    requires ';' !in name
    ensures HasCookie(before + ";" + name, name) == HasCookie(before, name)
  {
    BareNameIsNoCookie(name);
    HasCookieConcat(before, name, name);
  }

  /** The scan over two lists of pieces finds a match iff it finds one in either list. */
  lemma {:induction false} SomeTrimmedStartsWithAppend(p: seq<string>, q: seq<string>, prefix: string)
    ensures SomeTrimmedStartsWith(p + q, prefix) <==> SomeTrimmedStartsWith(p, prefix) || SomeTrimmedStartsWith(q, prefix)
    decreases |p|
  {
    if |p| == 0 {
      assert p + q == q;
    } else {
      SomeTrimmedStartsWithAppend(p[1..], q, prefix);
      assert (p + q)[0] == p[0];
      assert (p + q)[1..] == p[1..] + q;
    }
  }

  /** Joining two cookie strings with `;` finds exactly the cookies of either part. */
  lemma HasCookieConcat(a: string, b: string, name: string)
    ensures HasCookie(a + ";" + b, name) <==> HasCookie(a, name) || HasCookie(b, name)
  {
    assert a + ";" + b == a + [';'] + b;
    SplitConcat(a, b, ';');
    SomeTrimmedStartsWithAppend(Split(a, ';'), Split(b, ';'), name + "=");
  }

  /**
   Whitespace before a cookie does not hide it, its value does not matter (not
   even a `;` inside it), and neither do the cookies before it: a piece
   `pad + name + "=" + value` holds the cookie `name`, alone or after others.
   */
  lemma CookieFoundWhateverItsValue(before: string, pad: string, name: string, value: string)
    requires forall m :: 0 <= m < |pad| ==> IsJsWhitespace(pad[m])
    requires name == "" || !IsJsWhitespace(name[0])
    requires ';' !in name
    ensures HasCookie(pad + name + "=" + value, name)
    ensures HasCookie(before + ";" + (pad + name + "=" + value), name)
  {
    var x := pad + name + "=" + value;
    CookieFoundAtStart(pad, name, value);
    FirstPieceCookie(x, name);
    CookieAfterOthers(before, x, name);
  }

  /** A cookie string stays found when other cookies come before it. */
  lemma CookieAfterOthers(before: string, cookie: string, name: string)
    requires HasCookie(cookie, name)
    ensures HasCookie(before + ";" + cookie, name)
  {
    HasCookieConcat(before, cookie, name);
  }

  /**
   The conditions on `name` above are exactly the names the scan can ever find:
   a name containing `;` or starting with whitespace is never found.
   */
  lemma UnfindableName(cookie: string, name: string)
    requires ';' in name || (name != "" && IsJsWhitespace(name[0]))
    ensures !HasCookie(cookie, name)
  {
    var pieces := Split(cookie, ';');
    forall i | 0 <= i < |pieces| ensures !(name + "=" <= Trim(pieces[i])) {
      NotPrefixOfTrimmedPiece(pieces[i], name);
    }
  }

  /** A trimmed `;`-free piece neither contains `;` nor starts with whitespace. */
  lemma NotPrefixOfTrimmedPiece(piece: string, name: string)
    requires ';' !in piece
    requires ';' in name || (name != "" && IsJsWhitespace(name[0]))
    ensures !(name + "=" <= Trim(piece))
  {
    TrimIsSlice(piece);
    var t := Trim(piece);
    var i, j :| 0 <= i <= j <= |piece| && t == piece[i..j];
    assert ';' !in t by {
      forall k | 0 <= k < |t| ensures t[k] != ';' {
        assert t[k] == piece[i + k];
      }
    }
    PrefixKeepsCharacters(name + "=", t);
  }

  /** Every character of a prefix is a character of the whole, and so is its first one. */
  lemma PrefixKeepsCharacters(a: string, b: string)
    ensures a <= b ==> forall c :: c in a ==> c in b
    ensures a <= b && a != "" ==> b != "" && b[0] == a[0]
  {
    if a <= b {
      forall c | c in a ensures c in b {
        var k :| 0 <= k < |a| && a[k] == c;
        assert b[k] == c;
      }
    }
  }

  /** A cookie in the first piece is found. */
  lemma FirstPieceCookie(cookie: string, name: string)
    requires name + "=" <= Trim(Split(cookie, ';')[0])
    ensures HasCookie(cookie, name)
  {
  }

  /** The first piece of `pad + name + "=" + value` trims to a string starting with `name=`. */
  lemma CookieFoundAtStart(pad: string, name: string, value: string)
    requires forall m :: 0 <= m < |pad| ==> IsJsWhitespace(pad[m])
    requires name == "" || !IsJsWhitespace(name[0])
    requires ';' !in name
    ensures name + "=" <= Trim(Split(pad + name + "=" + value, ';')[0])
  {
    var head := pad + name + "=";
    assert ';' !in pad by {
      forall m | 0 <= m < |pad| ensures pad[m] != ';' {
        assert IsJsWhitespace(pad[m]);
      }
    }
    assert ';' !in head;
    SplitFirstPiece(head, value, ';');
    TrimKeepsNamePrefix(Split(head + value, ';')[0], pad, name);
  }

  /** A piece made of whitespace, then `name=`, then anything, trims to a string starting with `name=`. */
  lemma TrimKeepsNamePrefix(piece: string, pad: string, name: string)
    requires forall m :: 0 <= m < |pad| ==> IsJsWhitespace(pad[m])
    requires name == "" || !IsJsWhitespace(name[0])
    requires pad + name + "=" <= piece
    ensures name + "=" <= Trim(piece)
  {
    var head := pad + name + "=";
    assert forall m :: 0 <= m < |pad| ==> piece[m] == pad[m] by {
      forall m | 0 <= m < |pad| ensures piece[m] == pad[m] {
        assert piece[m] == head[m];
      }
    }
    assert piece[|pad|] == head[|pad|];
    LeadingWhitespaceExact(piece, |pad|);
    var t := piece[|pad|..];
    assert t[..|name| + 1] == name + "=" by {
      forall m | 0 <= m < |name| + 1 ensures t[m] == (name + "=")[m] {
        assert t[m] == head[|pad| + m];
      }
    }
    TrailingWhitespaceKeeps(t, |name| + 1);
    assert Trim(piece) == t[..TrailingWhitespace(t)];
  }

  /** The leading whitespace run is the unique whitespace prefix followed by a non-whitespace character. */
  lemma LeadingWhitespaceExact(s: string, k: nat)
    requires k <= |s| && forall m :: 0 <= m < k ==> IsJsWhitespace(s[m])
    requires k < |s| ==> !IsJsWhitespace(s[k])
    ensures LeadingWhitespace(s) == k
  {
  }

  /** Trailing whitespace removal never cuts into a non-whitespace character. */
  lemma TrailingWhitespaceKeeps(s: string, m: nat)
    requires 0 < m <= |s| && !IsJsWhitespace(s[m - 1])
    ensures m <= TrailingWhitespace(s)
  {
  }

  /** The session cookie with an empty value, after a space, still means logged in. */
  lemma LoggedInWithEmptyValue()
    ensures IsLoggedIn(" " + LoginCookie + "=")
  {
    CookieFoundWhateverItsValue("", " ", LoginCookie, "");
    assert " " + LoginCookie + "=" + "" == " " + LoginCookie + "=";
  }

  /** The bare cookie name without `=` does not log anyone in. */
  lemma BareLoginCookieIsLoggedOut()
    ensures !IsLoggedIn("mps-login-access-local")
  {
    BareNameIsNoCookie(LoginCookie);
  }
}

=== FILE: jsstrings.dfy ===
/**
 The few pieces of JavaScript string semantics the authentication bar relies on:
 `String.prototype.split` on a one-character separator, `String.prototype.trim`,
 `startsWith` (Dafny's sequence prefix `<=`), `includes` (`in`), and the `||`
 operator applied to strings, which yields its first non-empty operand.
 `indexOf` is not used by the bar itself: it serves to read a built URL back
 into its path and query parameters.
 */
module JsStrings {

  /** Optional values; `None` stands for JavaScript's `undefined`. */
  datatype Option<+T> = None | Some(value: T)

  /** `s || ""` for a possibly undefined string: the empty string is what `undefined` reads as. */
  function Text(o: Option<string>): string {
    match o
    case Some(s) => s
    case None => ""
  }

  /** JavaScript truthiness of a possibly undefined string. */
  predicate Truthy(o: Option<string>) {
    o.Some? && o.value != ""
  }

  /** `a || b` for two strings: `a` unless it is empty (falsy). */
  function Or(a: string, b: string): (r: string)
    ensures a != "" ==> r == a
    ensures a == "" ==> r == b
  {
    if a != "" then a else b
  }

  /** `xs[0] || xs[1] || ... || ""`: the first non-empty string of the list. */
  function FirstNonEmpty(xs: seq<string>): (r: string)
    ensures r == "" <==> forall i :: 0 <= i < |xs| ==> xs[i] == ""
    ensures r != "" ==> exists k :: 0 <= k < |xs| && xs[k] == r && forall i :: 0 <= i < k ==> xs[i] == ""
  {
    if |xs| == 0 then ""
    else if xs[0] != "" then xs[0]
    else
      var r := FirstNonEmpty(xs[1..]);
      assert r != "" ==> exists k :: 0 < k < |xs| && xs[k] == r && forall i :: 0 <= i < k ==> xs[i] == "" by {
        if r != "" {
          var k' :| 0 <= k' < |xs[1..]| && xs[1..][k'] == r && forall i :: 0 <= i < k' ==> xs[1..][i] == "";
          assert xs[k' + 1] == r;
          assert forall i :: 0 <= i < k' + 1 ==> xs[i] == "" by {
            forall i | 0 <= i < k' + 1 ensures xs[i] == "" {
              if i > 0 { assert xs[i] == xs[1..][i - 1]; }
            }
          }
        }
      }
      r
  }

  /** A chained `a || b` equals the first non-empty element of the list `[a, b]`. */
  lemma OrIsFirstNonEmpty(a: string, b: string)
    ensures Or(a, b) == FirstNonEmpty([a, b])
  {
    if a == "" {
      assert [a, b][1..] == [b];
      assert [b][1..] == [];
    }
  }

  // ---------------------------------------------------------------------------
  // split / join on a single-character separator

  /** `s.split(sep)` for a one-character separator: never empty, `"".split(sep) == [""]`. */
  function Split(s: string, sep: char): (parts: seq<string>)
    ensures |parts| >= 1
    ensures forall i :: 0 <= i < |parts| ==> sep !in parts[i]
    decreases |s|
  {
    if |s| == 0 then [""]
    else
      var rest := Split(s[1..], sep);
      if s[0] == sep then [""] + rest
      else [[s[0]] + rest[0]] + rest[1..]
  }

  /** Joining the pieces with the separator gives back the split string. */
  lemma {:induction false} JoinSplit(s: string, sep: char)
    ensures Join(Split(s, sep), sep) == s
    decreases |s|
  {
    if |s| > 0 {
      JoinSplit(s[1..], sep);
      var rest := Split(s[1..], sep);
      SplitUnfold(s, sep);
      if s[0] == sep {
        JoinCons("", rest, sep);
      } else {
        var parts := [[s[0]] + rest[0]] + rest[1..];
        assert parts[1..] == rest[1..];
        if |rest| > 1 {
          assert Join(rest, sep) == rest[0] + [sep] + Join(rest[1..], sep);
          assert Join(parts, sep) == ([s[0]] + rest[0]) + [sep] + Join(rest[1..], sep);
        }
        assert Join(parts, sep) == [s[0]] + Join(rest, sep);
        assert [s[0]] + s[1..] == s;
      }
    }
  }

  /** `parts.join(sep)`. */
  function Join(parts: seq<string>, sep: char): string
    requires |parts| >= 1
  {
    if |parts| == 1 then parts[0] else parts[0] + [sep] + Join(parts[1..], sep)
  }

  lemma JoinCons(p: string, rest: seq<string>, sep: char)
    requires |rest| >= 1
    ensures Join([p] + rest, sep) == p + [sep] + Join(rest, sep)
  {
    assert ([p] + rest)[1..] == rest;
  }

  /** Split inverts Join: the separator-free parts of a joined string come back out unchanged. */
  lemma {:induction false} SplitJoin(parts: seq<string>, sep: char)
    requires |parts| >= 1
    requires forall i :: 0 <= i < |parts| ==> sep !in parts[i]
    ensures Split(Join(parts, sep), sep) == parts
    decreases |parts|
  {
    if |parts| == 1 {
      SplitNoSeparator(parts[0], sep);
    } else {
      SplitJoin(parts[1..], sep);
      SplitConcat(parts[0], Join(parts[1..], sep), sep);
      SplitNoSeparator(parts[0], sep);
      assert [parts[0]] + parts[1..] == parts;
    }
  }

  /** A string without the separator splits into itself. */
  lemma {:induction false} SplitNoSeparator(s: string, sep: char)
    requires sep !in s
    ensures Split(s, sep) == [s]
    decreases |s|
  {
    if |s| > 0 {
      SplitNoSeparator(s[1..], sep);
      assert [s[0]] + s[1..] == s;
    }
  }

  /** Splitting `a + sep + b` splits `a` and `b` independently. */
  lemma {:induction false} SplitConcat(a: string, b: string, sep: char)
    ensures Split(a + [sep] + b, sep) == Split(a, sep) + Split(b, sep)
    decreases |a|
  {
    var s := a + [sep] + b;
    if |a| == 0 {
      assert s == [sep] + b;
      SplitUnfold(s, sep);
      assert s[1..] == b;
    } else {
      assert s[1..] == a[1..] + [sep] + b;
      SplitConcat(a[1..], b, sep);
      var ra := Split(a[1..], sep);
      var rb := Split(b, sep);
      SplitUnfold(a, sep);
      SplitUnfold(s, sep);
      if a[0] != sep {
        assert (ra + rb)[0] == ra[0];
        assert (ra + rb)[1..] == ra[1..] + rb;
      }
    }
  }

  /** A separator-free start of a string is the start of its first piece. */
  lemma {:induction false} SplitFirstPiece(a: string, b: string, sep: char)
    requires sep !in a
    ensures a <= Split(a + b, sep)[0]
    decreases |a|
  {
    if |a| > 0 {
      var s := a + b;
      assert s[1..] == a[1..] + b;
      SplitFirstPiece(a[1..], b, sep);
      SplitUnfold(s, sep);
      assert a == [a[0]] + a[1..];
    }
  }

  /** One step of Split, as a lemma so that callers need not unfold the function. */
  lemma SplitUnfold(s: string, sep: char)
    requires |s| > 0
    ensures s[0] == sep ==> Split(s, sep) == [""] + Split(s[1..], sep)
    ensures s[0] != sep ==> Split(s, sep) == [[s[0]] + Split(s[1..], sep)[0]] + Split(s[1..], sep)[1..]
  {
  }

  /** The number of parts is one more than the number of separators. */
  lemma {:induction false} SplitCount(s: string, sep: char)
    ensures |Split(s, sep)| == Count(s, sep) + 1
    decreases |s|
  {
    if |s| > 0 {
      SplitCount(s[1..], sep);
    }
  }

  /** Number of occurrences of `c` in `s`. */
  function Count(s: string, c: char): nat {
    if |s| == 0 then 0 else (if s[0] == c then 1 else 0) + Count(s[1..], c)
  }

  // ---------------------------------------------------------------------------
  // indexOf

  /** `s.indexOf(c)` when `c` occurs: the position of its first occurrence. */
  function IndexOf(s: string, c: char): (i: nat)
    requires c in s
    ensures i < |s| && s[i] == c
    ensures forall k :: 0 <= k < i ==> s[k] != c
  {
    if s[0] == c then 0 else 1 + IndexOf(s[1..], c)
  }

  /** Appending text after the first occurrence does not move it. */
  lemma IndexOfExtend(a: string, b: string, c: char)
    requires c in a
    ensures c in a + b && IndexOf(a + b, c) == IndexOf(a, c)
  {
    var i := IndexOf(a, c);
    assert (a + b)[i] == c;
    IndexOfFirst(a + b, c, i);
  }

  /** In `a + c + b` with no `c` in `a`, the first `c` is the one after `a`. */
  lemma IndexOfAfter(a: string, b: string, c: char)
    requires c !in a
    ensures c in a + [c] + b && IndexOf(a + [c] + b, c) == |a|
  {
    var x := a + [c] + b;
    assert x[|a|] == c;
    assert forall m :: 0 <= m < |a| ==> x[m] == a[m];
    IndexOfFirst(x, c, |a|);
  }

  /** The first occurrence is the only position holding `c` with no `c` before it. */
  lemma IndexOfFirst(s: string, c: char, k: nat)
    requires k < |s| && s[k] == c
    requires forall m :: 0 <= m < k ==> s[m] != c
    ensures IndexOf(s, c) == k
  {
  }

  // ---------------------------------------------------------------------------
  // trim

  /**
   The characters `String.prototype.trim` removes: the WhiteSpace and
   LineTerminator code points of ECMA-262 (tab, vertical tab, form feed, space,
   no-break space, zero-width no-break space, the other space separators of
   Unicode category Zs, line feed, carriage return, line and paragraph separator).
   */
  predicate IsJsWhitespace(c: char) {
    || c == '\t' || c == '\U{000B}' || c == '\U{000C}' || c == ' '
    || c == '\U{00A0}' || c == '\U{FEFF}' || c == '\U{1680}'
    || ('\U{2000}' <= c <= '\U{200A}')
    || c == '\U{202F}' || c == '\U{205F}' || c == '\U{3000}'
    || c == '\n' || c == '\r' || c == '\U{2028}' || c == '\U{2029}'
  }

  predicate AllWhitespace(s: string) {
    forall i :: 0 <= i < |s| ==> IsJsWhitespace(s[i])
  }

  /** Length of the whitespace run at the start of `s`. */
  function LeadingWhitespace(s: string): (i: nat)
    ensures i <= |s|
    ensures forall m :: 0 <= m < i ==> IsJsWhitespace(s[m])
    ensures i < |s| ==> !IsJsWhitespace(s[i])
  {
    if |s| > 0 && IsJsWhitespace(s[0]) then
      1 + LeadingWhitespace(s[1..])
    else 0
  }

  /** Position where the whitespace run at the end of `s` begins. */
  function TrailingWhitespace(s: string): (j: nat)
    ensures j <= |s|
    ensures forall m :: j <= m < |s| ==> IsJsWhitespace(s[m])
    ensures 0 < j ==> !IsJsWhitespace(s[j - 1])
  {
    if |s| > 0 && IsJsWhitespace(s[|s| - 1]) then
      TrailingWhitespace(s[..|s| - 1])
    else |s|
  }

  /** `s.trim()`: `s` without its leading and trailing whitespace. */
  function Trim(s: string): (r: string)
    ensures |r| <= |s|
  {
    var i := LeadingWhitespace(s);
    s[i..][..TrailingWhitespace(s[i..])]
  }

  /**
   Trim keeps a slice of its input: what it removes on either side is all
   whitespace, and what it keeps neither starts nor ends with whitespace.
   */
  lemma TrimIsSlice(s: string)
    ensures exists i, j :: 0 <= i <= j <= |s| && Trim(s) == s[i..j] && AllWhitespace(s[..i]) && AllWhitespace(s[j..])
    ensures Trim(s) == "" || (!IsJsWhitespace(Trim(s)[0]) && !IsJsWhitespace(Trim(s)[|Trim(s)| - 1]))
  {
    var i := LeadingWhitespace(s);
    var t := s[i..];
    var j := TrailingWhitespace(t);
    assert t[j..] == s[i + j..];
    assert t[..j] == s[i..i + j];
    assert Trim(s) == s[i..i + j];
    WhitespaceBefore(s, i);
    WhitespaceFrom(t, j);
  }

  /** A string whose first `k` characters are whitespace has an all-whitespace prefix of length `k`. */
  lemma WhitespaceBefore(s: string, k: nat)
    requires k <= |s| && forall m :: 0 <= m < k ==> IsJsWhitespace(s[m])
    ensures AllWhitespace(s[..k])
  {
    forall m | 0 <= m < k ensures IsJsWhitespace(s[..k][m]) {
      assert s[..k][m] == s[m];
    }
  }

  /** A string whose characters from `k` on are whitespace has an all-whitespace suffix from `k`. */
  lemma WhitespaceFrom(s: string, k: nat)
    requires k <= |s| && forall m :: k <= m < |s| ==> IsJsWhitespace(s[m])
    ensures AllWhitespace(s[k..])
  {
    forall m | 0 <= m < |s| - k ensures IsJsWhitespace(s[k..][m]) {
      assert s[k..][m] == s[k + m];
    }
  }
}

=== FILE: thumbnails.dfy ===
/**
 Thumbnail identifier of the current canvas: three retrieval strategies tried in
 a fixed order, then the image-server path segment cut out of the identifier.

 The canvas is the host viewer's object, accessed duck-typed; here it is a
 record of what each access would yield.
 */
module Thumbnails {
  import opened JsStrings

  /** A thumbnail object: its `@id` and `id` properties ("" when missing). */
  datatype ThumbRef = ThumbRef(atId: string, id: string)

  /** A `thumbnail` value: missing, a single object, or an array of objects. */
  datatype Thumb = Absent | Object(ref: ThumbRef) | Array(items: seq<ThumbRef>)

  /**
   What the canvas exposes:
   - `jsonldThumbnail`: `canvas.__jsonld.thumbnail` (`Absent` also when `__jsonld` is missing);
   - `getThumbnail`: `None` when `canvas.getThumbnail` is not a function, else what it returns;
   - `getProperty`: `None` when `canvas.getProperty` is not a function, else what
     `canvas.getProperty('thumbnail')` returns.
   */
  datatype Canvas = Canvas(jsonldThumbnail: Thumb, getThumbnail: Option<Thumb>, getProperty: Option<Thumb>)

  /** The identifiers a thumbnail value carries where a probe may look: the object's, or the first item's. */
  function Fields(t: Thumb): set<string> {
    match t
    case Absent => {}
    case Object(o) => {o.atId, o.id}
    case Array(xs) => if |xs| > 0 then {xs[0].atId, xs[0].id} else {}
  }

  // ---------------------------------------------------------------------------
  // The three probes

  /** `thumb['@id'] || thumb.id || (Array.isArray(thumb) && thumb[0] && (thumb[0]['@id'] || thumb[0].id)) || ''`. */
  function JsonLdProbe(t: Thumb): (r: string)
    ensures r == "" || r in Fields(t)
    ensures r == "" <==> forall f :: f in Fields(t) ==> f == ""
    ensures t.Object? && t.ref.atId != "" ==> r == t.ref.atId
    ensures t.Array? && |t.items| > 0 && t.items[0].atId != "" ==> r == t.items[0].atId
  {
    match t
    case Absent => ""
    case Object(o) => Or(o.atId, o.id)
    case Array(xs) => if |xs| > 0 then Or(xs[0].atId, xs[0].id) else ""
  }

  /** `thumbnail.id || thumbnail['@id'] || ''` for the value `getThumbnail()` returned. */
  function GetThumbnailProbe(t: Thumb): (r: string)
    ensures r == "" || r in Fields(t)
    ensures t.Object? ==> (r == "" <==> t.ref.id == "" && t.ref.atId == "")
    ensures t.Object? && t.ref.id != "" ==> r == t.ref.id
    ensures !t.Object? ==> r == ""
  {
    match t
    case Object(o) => Or(o.id, o.atId)
    case _ => ""
  }

  /** `thumbnail.id || thumbnail['@id'] || (Array.isArray(thumbnail) && ...) || ''` for `getProperty('thumbnail')`. */
  function GetPropertyProbe(t: Thumb): (r: string)
    ensures r == "" || r in Fields(t)
    ensures r == "" <==> forall f :: f in Fields(t) ==> f == ""
    ensures t.Object? && t.ref.id != "" ==> r == t.ref.id
    ensures t.Array? && |t.items| > 0 && t.items[0].atId != "" ==> r == t.items[0].atId
  {
    match t
    case Absent => ""
    case Object(o) => Or(o.id, o.atId)
    case Array(xs) => if |xs| > 0 then Or(xs[0].atId, xs[0].id) else ""
  }

  /**
   Field priority differs by strategy: on an object carrying two different
   identifiers the `__jsonld` probe takes `@id` and the two accessor probes take
   `id`; on an array, `getThumbnail` finds nothing while the other two take the
   first item's `@id`.
   */
  lemma ProbePriorities(o: ThumbRef, rest: seq<ThumbRef>)
    requires o.atId != "" && o.id != ""
    ensures JsonLdProbe(Object(o)) == o.atId
    ensures GetThumbnailProbe(Object(o)) == o.id
    ensures GetPropertyProbe(Object(o)) == o.id
    ensures JsonLdProbe(Array([o] + rest)) == o.atId
    ensures GetPropertyProbe(Array([o] + rest)) == o.atId
    ensures GetThumbnailProbe(Array([o] + rest)) == ""
  {
  }

  // ---------------------------------------------------------------------------
  // Retrieval in fixed order

  /** The identifier before extraction: each later probe runs only while the identifier is still empty. */
  function RawThumbnailId(c: Canvas): (r: string)
    ensures r == "" || r in Fields(c.jsonldThumbnail)
                    || (c.getThumbnail.Some? && r in Fields(c.getThumbnail.value))
                    || (c.getProperty.Some? && r in Fields(c.getProperty.value))
  {
    var fromJsonLd := JsonLdProbe(c.jsonldThumbnail);
    var afterGetThumbnail :=
      if fromJsonLd == "" && c.getThumbnail.Some? then GetThumbnailProbe(c.getThumbnail.value) else fromJsonLd;
    if afterGetThumbnail == "" && c.getProperty.Some? then GetPropertyProbe(c.getProperty.value) else afterGetThumbnail
  }

  /** The strategies as an ordered list of results; a missing accessor yields "". */
  function Probes(c: Canvas): seq<string> {
    [ JsonLdProbe(c.jsonldThumbnail)
    , if c.getThumbnail.Some? then GetThumbnailProbe(c.getThumbnail.value) else ""
    , if c.getProperty.Some? then GetPropertyProbe(c.getProperty.value) else ""
    ]
  }

  /** The sequence of guarded assignments is "first strategy that yields a non-empty identifier". */
  lemma RawThumbnailIdIsFirstProbe(c: Canvas)
    ensures RawThumbnailId(c) == FirstNonEmpty(Probes(c))
  {
    var ps := Probes(c);
    assert ps[1..][1..][1..] == [];
    assert FirstNonEmpty(ps[1..][1..]) == Or(ps[2], "");
    assert FirstNonEmpty(ps[1..]) == Or(ps[1], FirstNonEmpty(ps[1..][1..]));
    assert FirstNonEmpty(ps) == Or(ps[0], FirstNonEmpty(ps[1..]));
  }

  /** When `__jsonld` yields an identifier, neither accessor is consulted: replacing them changes nothing. */
  lemma JsonLdProbeShadowsAccessors(c: Canvas, g: Option<Thumb>, p: Option<Thumb>)
    requires JsonLdProbe(c.jsonldThumbnail) != ""
    ensures RawThumbnailId(c.(getThumbnail := g, getProperty := p)) == JsonLdProbe(c.jsonldThumbnail)
  {
  }

  /** `getProperty` is consulted only when both earlier probes come back empty. */
  lemma GetPropertyConsultedLast(c: Canvas, p: Option<Thumb>)
    requires JsonLdProbe(c.jsonldThumbnail) != "" || (c.getThumbnail.Some? && GetThumbnailProbe(c.getThumbnail.value) != "")
    ensures RawThumbnailId(c.(getProperty := p)) == RawThumbnailId(c)
  {
  }

  // ---------------------------------------------------------------------------
  // Path-segment extraction: the first match of /assets\/images\/([^/]+)\/full\//

  const ImagesMarker: string := "assets/images/"
  const FullMarker: string := "/full/"

  /** The pattern matches `s` at position `p` with `seg` as its captured group. */
  predicate MatchAt(s: string, p: nat, seg: string) {
    p <= |s| && seg != "" && '/' !in seg && ImagesMarker + seg + FullMarker <= s[p..]
  }

  ghost predicate HasMatch(s: string) {
    exists p: nat, seg :: MatchAt(s, p, seg)
  }

  /** The match the regular expression engine reports: the one starting leftmost. */
  ghost predicate LeftmostMatch(s: string, p: nat, seg: string) {
    MatchAt(s, p, seg) && forall q: nat, x :: q < p ==> !MatchAt(s, q, x)
  }

  /** End of the run of non-`/` characters starting at `i`. */
  function SlashFreeRunEnd(s: string, i: nat): (j: nat)
    requires i <= |s|
    ensures i <= j <= |s|
    ensures forall k :: i <= k < j ==> s[k] != '/'
    ensures j == |s| || s[j] == '/'
    decreases |s| - i
  {
    if i == |s| || s[i] == '/' then i else SlashFreeRunEnd(s, i + 1)
  }

  /** The captured group of a match at `p`, if the pattern matches there; there is at most one. */
  function SegmentAt(s: string, p: nat): (r: Option<string>)
    requires p <= |s|
    ensures r.Some? ==> MatchAt(s, p, r.value)
    ensures forall seg :: MatchAt(s, p, seg) ==> r == Some(seg)
  {
    if ImagesMarker <= s[p..] then
      var a := p + |ImagesMarker|;
      var e := SlashFreeRunEnd(s, a);
      var seg := s[a..e];
      SegmentUnique(s, p, seg);
      if seg != "" && FullMarker <= s[e..] then
        MatchFromParts(s, p, seg);
        Some(seg)
      else
        None
    else
      NoMarkerNoMatch(s, p);
      None
  }

  /** The marker, a non-empty slash-free group and `/full/` in a row make a match. */
  lemma MatchFromParts(s: string, p: nat, seg: string)
    requires p + |ImagesMarker| + |seg| <= |s| && ImagesMarker <= s[p..]
    requires seg != "" && '/' !in seg && seg == s[p + |ImagesMarker|..p + |ImagesMarker| + |seg|]
    requires FullMarker <= s[p + |ImagesMarker| + |seg|..]
    ensures MatchAt(s, p, seg)
  {
    var m := ImagesMarker + seg + FullMarker;
    var a := p + |ImagesMarker|;
    forall k | 0 <= k < |m| ensures s[p..][k] == m[k] {
      if k < |ImagesMarker| {
        assert s[p..][k] == ImagesMarker[k];
      } else if k < |ImagesMarker| + |seg| {
        assert s[p..][k] == s[a..a + |seg|][k - |ImagesMarker|];
      } else {
        assert s[p..][k] == s[a + |seg|..][k - |ImagesMarker| - |seg|];
      }
    }
  }

  /** Without the marker at `p` nothing matches there. */
  lemma NoMarkerNoMatch(s: string, p: nat)
    requires p <= |s| && !(ImagesMarker <= s[p..])
    ensures forall seg :: !MatchAt(s, p, seg)
  {
    forall seg | MatchAt(s, p, seg) ensures false {
      MatchHasMarker(s, p, seg);
    }
  }

  /** A match at `p` starts with the marker. */
  lemma MatchHasMarker(s: string, p: nat, seg: string)
    requires MatchAt(s, p, seg)
    ensures ImagesMarker <= s[p..]
  {
    var m := ImagesMarker + seg + FullMarker;
    assert s[p..][..|ImagesMarker|] == m[..|ImagesMarker|] == ImagesMarker;
  }

  /**
   Any group captured at `p` is the whole slash-free run after the marker:
   `[^/]+` followed by `/` cannot stop early or run past a `/`.
   */
  lemma SegmentUnique(s: string, p: nat, run: string)
    requires p + |ImagesMarker| <= |s| && ImagesMarker <= s[p..]
    requires run == s[p + |ImagesMarker|..SlashFreeRunEnd(s, p + |ImagesMarker|)]
    ensures forall seg :: MatchAt(s, p, seg) ==> seg == run && run != "" && FullMarker <= s[p + |ImagesMarker| + |run|..]
  {
    forall seg | MatchAt(s, p, seg)
      ensures seg == run && run != "" && FullMarker <= s[p + |ImagesMarker| + |run|..]
    {
      MatchedSegmentIsRun(s, p, seg);
    }
  }

  /** A matched group sits right after the marker and ends at the first `/` after it, which starts `/full/`. */
  lemma MatchedSegmentIsRun(s: string, p: nat, seg: string)
    requires MatchAt(s, p, seg)
    ensures SlashFreeRunEnd(s, p + |ImagesMarker|) == p + |ImagesMarker| + |seg|
    ensures seg == s[p + |ImagesMarker|..p + |ImagesMarker| + |seg|]
    ensures FullMarker <= s[p + |ImagesMarker| + |seg|..]
  {
    var a := p + |ImagesMarker|;
    var m := ImagesMarker + seg + FullMarker;
    MatchCharacters(s, p, m);
    assert forall k :: 0 <= k < |seg| ==> s[a + k] == seg[k] by {
      forall k | 0 <= k < |seg| ensures s[a + k] == seg[k] {
        assert m[|ImagesMarker| + k] == seg[k];
      }
    }
    assert s[a + |seg|] == '/' by {
      assert m[|ImagesMarker| + |seg|] == '/';
    }
    SlashFreeRunEndAt(s, a, a + |seg|);
    assert s[a + |seg|..][..|FullMarker|] == FullMarker by {
      forall k | 0 <= k < |FullMarker| ensures s[a + |seg|..][k] == FullMarker[k] {
        assert m[|ImagesMarker| + |seg| + k] == FullMarker[k];
      }
    }
  }

  /** A text `m` found at `p` is `s`'s characters from `p` on. */
  lemma MatchCharacters(s: string, p: nat, m: string)
    requires p <= |s| && m <= s[p..]
    ensures p + |m| <= |s| && forall k :: 0 <= k < |m| ==> s[p + k] == m[k]
  {
    forall k | 0 <= k < |m| ensures s[p + k] == m[k] {
      assert s[p..][k] == s[p + k];
    }
  }

  /** The run of non-`/` characters from `i` ends at the first `/`. */
  lemma SlashFreeRunEndAt(s: string, i: nat, j: nat)
    requires i <= j < |s| && s[j] == '/'
    requires forall k :: i <= k < j ==> s[k] != '/'
    ensures SlashFreeRunEnd(s, i) == j
    decreases j - i
  {
    if i < j {
      SlashFreeRunEndAt(s, i + 1, j);
    }
  }

  /** The leftmost match at or after `from`, scanning positions left to right. */
  function FindMatch(s: string, from: nat): (r: Option<(nat, string)>)
    requires from <= |s|
    ensures r.Some? ==> from <= r.value.0 && MatchAt(s, r.value.0, r.value.1)
    ensures r.Some? ==> forall q: nat, x :: from <= q < r.value.0 ==> !MatchAt(s, q, x)
    ensures r.None? ==> forall q: nat, x :: from <= q ==> !MatchAt(s, q, x)
    decreases |s| - from
  {
    match SegmentAt(s, from)
    case Some(seg) => Some((from, seg))
    case None =>
      assert forall x :: !MatchAt(s, from, x);
      if from == |s| then None else FindMatch(s, from + 1)
  }

  /** Two leftmost matches are the same match. */
  lemma LeftmostMatchUnique(s: string, p: nat, a: string, q: nat, b: string)
    requires LeftmostMatch(s, p, a) && LeftmostMatch(s, q, b)
    ensures p == q && a == b
  {
    // SegmentAt's postcondition (one segment per position) is what closes the proof.
    var _ := SegmentAt(s, p);
  }

  /**
   The thumbnail identifier after extraction (lines 72-77): on a match, "/" and the
   captured segment of the leftmost match; otherwise the identifier unchanged.
   */
  function ExtractSegment(id: string): (r: string)
    ensures HasMatch(id) ==> exists p: nat, seg :: LeftmostMatch(id, p, seg) && r == "/" + seg
    ensures HasMatch(id) ==> |r| >= 2 && r[0] == '/' && '/' !in r[1..]
    ensures !HasMatch(id) ==> r == id
  {
    match FindMatch(id, 0)
    case Some((p, seg)) =>
      assert LeftmostMatch(id, p, seg);
      assert "/" + seg == ['/'] + seg;
      assert ("/" + seg)[1..] == seg;
      "/" + seg
    case None => id
  }

  /** Extraction is pinned down by the leftmost match alone. */
  lemma ExtractSegmentOfLeftmost(id: string, p: nat, seg: string)
    requires LeftmostMatch(id, p, seg)
    ensures ExtractSegment(id) == "/" + seg
  {
    var q: nat, x :| LeftmostMatch(id, q, x) && ExtractSegment(id) == "/" + x;
    LeftmostMatchUnique(id, p, seg, q, x);
  }

  /**
   An identifier made of a part in which no match starts, then the pattern,
   then anything, yields the pattern's segment.
   */
  lemma ExtractAfterPrefix(pre: string, seg: string, rest: string)
    requires forall q: nat, x :: q < |pre| ==> !MatchAt(pre + ImagesMarker + seg + FullMarker + rest, q, x)
    requires seg != "" && '/' !in seg
    ensures ExtractSegment(pre + ImagesMarker + seg + FullMarker + rest) == "/" + seg
  {
    var id := pre + ImagesMarker + seg + FullMarker + rest;
    assert id[|pre|..] == ImagesMarker + seg + FullMarker + rest;
    assert MatchAt(id, |pre|, seg);
    ExtractSegmentOfLeftmost(id, |pre|, seg);
  }

  /** No match starts inside a leading part without an `a`, the marker's first letter. */
  lemma NoMatchStartsWithoutA(pre: string, seg: string, rest: string)
    requires 'a' !in pre
    ensures forall q: nat, x :: q < |pre| ==> !MatchAt(pre + ImagesMarker + seg + FullMarker + rest, q, x)
  {
    var id := pre + ImagesMarker + seg + FullMarker + rest;
    forall q: nat, x | q < |pre| ensures !MatchAt(id, q, x) {
      assert id[q] == pre[q];
      assert id[q..][0] == id[q];
    }
  }

  /** Every match contains the marker's `/`. */
  lemma MatchHasSlash(s: string, p: nat, seg: string)
    requires MatchAt(s, p, seg)
    ensures '/' in s
  {
    assert s[p..][|ImagesMarker| - 1] == '/';
    assert s[p + |ImagesMarker| - 1] == '/';
  }

  /** An identifier without any `/` cannot match and is kept as it is. */
  lemma NoSlashKeepsIdentifier(id: string)
    requires '/' !in id
    ensures ExtractSegment(id) == id
  {
    forall p: nat, seg | MatchAt(id, p, seg) ensures false {
      MatchHasSlash(id, p, seg);
    }
  }

  // ---------------------------------------------------------------------------
  // The whole derivation

  /**
   The thumbnail identifier the bar appends to the login URL: empty without a
   canvas or when no strategy finds an identifier; otherwise `/` and the leftmost
   match's segment, or the found identifier itself when the pattern does not match.
   */
  function ThumbnailId(canvas: Option<Canvas>): (r: string)
    ensures canvas.None? ==> r == ""
    ensures canvas.Some? ==> (r == "" <==> RawThumbnailId(canvas.value) == "")
    ensures canvas.Some? && !HasMatch(RawThumbnailId(canvas.value)) ==> r == RawThumbnailId(canvas.value)
    ensures canvas.Some? && HasMatch(RawThumbnailId(canvas.value)) ==>
      exists p: nat, seg :: LeftmostMatch(RawThumbnailId(canvas.value), p, seg) && r == "/" + seg
  {
    match canvas
    case None => ""
    case Some(c) =>
      var raw := RawThumbnailId(c);
      if raw != "" then ExtractSegment(raw) else raw
  }
}
